=== FILE: README.md ===
# Morphing particles and launch countdown, in Dafny

This project models the behavioural core of two full-screen canvas
animations of a launch site.

`morph_particles.dfy` (module `MorphParticles`) models the p5 sketch in
`app/components/MorphParticles.jsx`:
- **The morph scheduler.** Four closure variables (`currentShape`, `targetShape`, `isMorphing`, `morphFrame`) are reassigned by an 800 ms interval and by every frame. It is modelled as a pure transition system (`TickStep`, `FrameStep`) and as a class whose methods are proved against it (`MorphScheduler`).
- **The morph target.** This is the cubic ease-in-out and the linear interpolation that picks each particle's target.
- **The `Particle` class.** Its constructor ranges, `applyForce`, `update` (with p5's `limit` by its contract) and the speed-to-stroke mapping of `draw`.
- **The particle array.** The setup loop, the per-frame loop and the resize loop (`Swarm`).

`countdown.dfy` (module `Countdown`) models the effect in
`app/components/Countdown.jsx`:
- **The `rotate` helper.** Cosine and sine are inputs.
- **The `Star` constructor arithmetic.** Orbit radius, hover and scatter heights, speed, phase and size.
- **The per-frame update of `Star.draw`.** Four branches for `y` and the rotation angle.
- **The countdown interval** from 5 to -1.
- **The lifecycle flags** `collapse`, `expanse` and `returning`. These are switched by `triggerExpanse` and its two follow-up timers, which end in a navigation.
- **The effect as a class** (`BlackHole`). It holds the stars, the counter and the flags.

Inputs the program obtains from its environment become parameters:
- every `Math.random()` / `p.random()` draw is a real in [0, 1);
- `Math.PI` is a positive real;
- `Date.now()` is an integer clock reading;
- cos/sin are reals (with c^2 + s^2 = 1 where a lemma needs it);
- each square root (p5's `mag` and `limit`) is a real tied to the vector by a precondition.

Numbers are exact reals; the program uses IEEE doubles.

## Model

| member | source | states |
|---|---|---|
| MorphParticles.JsRem | app/components/MorphParticles.jsx:164 | JavaScript's `%`: a − r is a multiple of n, and the remainder lies in [0, n) for a non-negative dividend and in (-n, 0] for a negative one |
| MorphParticles.NextShape | app/components/MorphParticles.jsx:22-26 | the next shape index mod 4 stays in 0..3, steps 0→1→2→3 and wraps 3→0 (circle) |
| MorphParticles.TickStep | app/components/MorphParticles.jsx:160-166 | a tick while morphing changes nothing; from idle it starts a morph at frame 0 towards the next shape; the current shape never changes; the scheduler invariant is preserved |
| MorphParticles.FrameStep | app/components/MorphParticles.jsx:179-186 | idle frames change nothing; a morph frame adds one to the counter, and the frame reaching 45 settles on the target shape, idle and at frame 0; afterwards a running morph has 0 < morphFrame < 45; the invariant is preserved |
| MorphParticles.Progress | app/components/MorphParticles.jsx:196 | `morphFrame / 45` lies in [0, 1), and is positive once a frame has been counted |
| MorphParticles.ProgressAfterFrame | app/components/MorphParticles.jsx:179-196 | the progress the particle loop reads after the frame step lies strictly inside (0, 1) |
| MorphParticles.FramesWhileMorphing | app/components/MorphParticles.jsx:179-186 | below the duration, n frames add exactly n to the counter and change nothing else |
| MorphParticles.FramesWhileSteady | app/components/MorphParticles.jsx:179 | any number of frames leaves an idle scheduler unchanged |
| MorphParticles.FramesAdd | app/components/MorphParticles.jsx:179-186 | m + n frames equal m frames followed by n frames |
| MorphParticles.MorphCompletes | app/components/MorphParticles.jsx:179-186 | a running morph becomes steady on its target after exactly 45 - morphFrame frames |
| MorphParticles.TickThenFrames | app/components/MorphParticles.jsx:160-186 | from idle, a tick followed by 45 frames leaves the scheduler idle on the next shape, while 44 frames leave it still morphing |
| MorphParticles.CycleSteady | app/components/MorphParticles.jsx:160-186 | a tick and 45 frames from the steady state on a valid shape give the steady state on the next shape |
| MorphParticles.FourCyclesReturn | app/components/MorphParticles.jsx:160-186 | four complete morph cycles return the scheduler to the state it started from |
| MorphParticles.RunKeepsInv | app/components/MorphParticles.jsx:32-35 | across any interleaving of ticks and frames the scheduler invariant holds, so both shape indices stay within 0..3 |
| MorphParticles.MorphScheduler.constructor | app/components/MorphParticles.jsx:32-35 | the scheduler starts idle on the circle at frame 0, satisfying the invariant |
| MorphParticles.MorphScheduler.Tick | app/components/MorphParticles.jsx:160-166 | the interval callback changes the four variables exactly as `TickStep` and keeps the invariant |
| MorphParticles.MorphScheduler.AdvanceMorph | app/components/MorphParticles.jsx:179-186 | the frame bookkeeping changes the four variables exactly as `FrameStep` and keeps the invariant |
| MorphParticles.EaseInOutCubic | app/components/MorphParticles.jsx:145 | the easing curve itself (4t³ below 1/2, 1 − (2 − 2t)³/2 from 1/2); what it promises is stated by the four lemmas below |
| MorphParticles.EaseFixedPoints | app/components/MorphParticles.jsx:145 | the ease maps 0 to 0, 1/2 to 1/2 and 1 to 1 |
| MorphParticles.EaseRange | app/components/MorphParticles.jsx:145 | the ease maps [0, 1] into [0, 1], the first half into [0, 1/2] and the second half into [1/2, 1] |
| MorphParticles.EaseMonotone | app/components/MorphParticles.jsx:145 | the ease is non-decreasing on [0, 1], across the switch between its two pieces |
| MorphParticles.EaseSymmetric | app/components/MorphParticles.jsx:145 | ease(1 - t) = 1 - ease(t) for every t |
| MorphParticles.Limit | app/components/MorphParticles.jsx:62 | p5's `limit`: the result's squared length is at most max²; a vector within the bound is unchanged; a longer one is rescaled by a non-negative factor to length exactly `max` |
| MorphParticles.Lerp | app/components/MorphParticles.jsx:197 | p5's `Vector.lerp`, a + (b − a)·t per coordinate; its bounds are stated by `LerpBetween` |
| MorphParticles.LerpBetween | app/components/MorphParticles.jsx:197 | for t in [0, 1] each coordinate of the interpolated point lies between the two end points' coordinates, reaching the first at t = 0 and the second at t = 1 |
| MorphParticles.MorphTarget | app/components/MorphParticles.jsx:191-200 | the target is the current shape's point when idle, and also at the start of a morph; otherwise it lies coordinate-wise between the current and the target shape's points |
| MorphParticles.RandomIn | app/components/MorphParticles.jsx:43-45 | `p.random(lo, hi)` lies in [lo, hi], strictly below hi when lo < hi, and equals lo when the range is empty |
| MorphParticles.ShapeRadius | app/components/MorphParticles.jsx:151 | the shape radius is 0.3 times the smaller canvas side |
| MorphParticles.SpawnPosition | app/components/MorphParticles.jsx:155 | the starting position lies in the canvas centred on the origin: x in [-w/2, w/2] and y in [-h/2, h/2], strictly below the upper bound for a side longer than 0 and exactly 0 for a side of length 0 |
| MorphParticles.MapRange | app/components/MorphParticles.jsx:69-71 | p5's unclamped `map`; its end points, range and monotonicity are stated by `MapRangeProperties` and `MapRangeMonotone` |
| MorphParticles.StrokeFor | app/components/MorphParticles.jsx:68-71 | brightness, opacity and weight each mapped from [0, maxSpeed]; bounds and monotonicity are stated by `StrokeBounds` and `StrokeMonotone` |
| MorphParticles.MapRangeProperties | app/components/MorphParticles.jsx:69-71 | p5's `map` sends the ends of the source range to the ends of the target range and keeps the source range inside the target range |
| MorphParticles.MapRangeMonotone | app/components/MorphParticles.jsx:69-71 | for increasing ranges, `map` is non-decreasing |
| MorphParticles.StrokeBounds | app/components/MorphParticles.jsx:68-71 | for a speed in [0, maxSpeed]: brightness lies in [60, 100], opacity in [0.1, 0.8] and weight in [size/2, size], with the lower ends at rest and the upper ends at full speed |
| MorphParticles.StrokeMonotone | app/components/MorphParticles.jsx:68-71 | a faster particle is drawn at least as bright, as opaque and as thick |
| MorphParticles.SpeedBound | app/components/MorphParticles.jsx:62-68 | a non-negative speed whose square is at most maxSpeed² is at most maxSpeed, so the stroke mapping stays in range |
| MorphParticles.Particle.constructor | app/components/MorphParticles.jsx:38-46 | all vectors start at zero; maxSpeed in [1, 8), maxForce in [0.05, 0.9), size in [0.5, 4.5) |
| MorphParticles.Particle.ApplyForce | app/components/MorphParticles.jsx:56-58 | the force is added to the acceleration; nothing else changes |
| MorphParticles.Particle.Update | app/components/MorphParticles.jsx:60-65 | the new velocity is the old velocity plus the acceleration, limited; the speed bound |vel|² ≤ maxSpeed² holds afterwards; the position moves by the new velocity; the acceleration is cleared |
| MorphParticles.Particle.Draw | app/components/MorphParticles.jsx:67-78 | the stroke is the speed mapping of the current speed, within its ranges; the trail start moves to the current position; nothing else changes |
| MorphParticles.Particle.Step | app/components/MorphParticles.jsx:202-204 | one loop iteration (apply the steering force, update, draw) leaves exactly the composed state: limited velocity, moved position, zero acceleration, trail start at the position |
| MorphParticles.Particle.Place | app/components/MorphParticles.jsx:214-215 | placing sets both the position and the trail start to the point; velocity and acceleration are unchanged |
| MorphParticles.Swarm.constructor | app/components/MorphParticles.jsx:151-158 | setup makes 1500 distinct fresh particles, the i-th built from the i-th draws, placed at its spawn position with its trail starting there; the radius is set from the canvas; any canvas size ≥ 0, an empty one included |
| MorphParticles.Swarm.Frame | app/components/MorphParticles.jsx:188-205 | the frame loop steps every particle exactly once with its own steering force, and returns each particle's stroke in order |
| MorphParticles.Swarm.Resize | app/components/MorphParticles.jsx:208-216 | resizing recomputes the radius and puts every particle and its trail start on its new shape point, without touching velocities or accelerations |
| Countdown.RotateFixesCentre | app/components/Countdown.jsx:53-60 | `rotate` maps the centre to itself |
| Countdown.RotateByZero | app/components/Countdown.jsx:53-60 | rotating with cos 1 and sin 0 is the identity |
| Countdown.Rotate | app/components/Countdown.jsx:53-60 | `rotate` with cos and sin given; when c² + s² = 1 the squared distance of the result to the centre equals that of the input point |
| Countdown.TrailStartMatchesCanvas | app/components/Countdown.jsx:118-125 | `rotate` by −r (cos r, −sin r) gives exactly the point the canvas transform translate–rotate(r)–translate draws for the same point, so each trail segment starts where the previous end point was drawn |
| Countdown.RotateInverse | app/components/Countdown.jsx:53-60 | rotating by an angle and then by its opposite returns the original point |
| Countdown.Orbital | app/components/Countdown.jsx:64-68 | the orbit radius, the mean of the two draws, lies in [153, 305.5) |
| Countdown.CollapseBonus | app/components/Countdown.jsx:79-80 | the bonus is max(0, orbital - 0.7 · 305): non-negative, and either 0 or exactly that excess |
| Countdown.HoverPos | app/components/Countdown.jsx:83 | the hover height is at least centery + 152.5, and stays inside the star's own orbit |
| Countdown.ExpansePos | app/components/Countdown.jsx:84 | the scatter height lies in [centery - 10·(id mod 100), that + 20), hence below centery + 20 |
| Countdown.StarSpeed | app/components/Countdown.jsx:74 | the angular speed lies in [1.5°, 4°) expressed in radians |
| Countdown.StartRotation | app/components/Countdown.jsx:75 | the start phase lies in [0, 2π) |
| Countdown.StarSize | app/components/Countdown.jsx:90 | the line width lies in [0.5, 4.5) |
| Countdown.PhaseOf | app/components/Countdown.jsx:95-107 | the flags select the hover branch exactly when collapsing with neither other flag on, the expanding branch exactly when expanding without returning, and the returning branch exactly when returning |
| Countdown.OrbitY | app/components/Countdown.jsx:97-99 | if y > yOrigin, y decreases by exactly 2.5 and the second rule does not fire; if yOrigin − 4 ≤ y ≤ yOrigin, y is unchanged; if y < yOrigin − 4, the gap yOrigin − y shrinks to 9/10 and y stays below yOrigin |
| Countdown.OrbitFixedPoints | app/components/Countdown.jsx:97-99 | every height within 4 units above the origin, the origin included, is a fixed point of the orbit rule |
| Countdown.HoverY | app/components/Countdown.jsx:100-103 | if y > hoverPos, the gap y − hoverPos shrinks to 4/5 and y stays above hoverPos; if hoverPos − 4 ≤ y ≤ hoverPos, y is unchanged; if y < hoverPos − 4, y increases by exactly 2.5 and stays below hoverPos |
| Countdown.ExpandY | app/components/Countdown.jsx:104-106 | if y > expansePos, the gap y − expansePos shrinks to 79/80 of itself, so y decreases and stays > expansePos; if y ≤ expansePos, y is unchanged |
| Countdown.ReturnY | app/components/Countdown.jsx:107-110 | farther than 2 from the original height the gap shrinks by the factor 49/50 without overshooting; within 2 the star snaps exactly onto it |
| Countdown.ReturnStays | app/components/Countdown.jsx:107-110 | a star on its original height stays there on every later returning frame |
| Countdown.ReturnSettles | app/components/Countdown.jsx:107-110 | a returning star lands exactly on its original height within max(1, 25 · starting distance) frames |
| Countdown.ExpandApproaches | app/components/Countdown.jsx:104-106 | starting from y > expansePos, after any number of expanding frames expansePos < y ≤ the starting y |
| Countdown.StepYKeepsBand | app/components/Countdown.jsx:95-111 | given expansePos < hoverPos < originalY == yOrigin, every branch keeps expansePos < y ≤ originalY |
| Countdown.RotationAt | app/components/Countdown.jsx:95-108 | the angle `draw` sets in each branch; `RotationHalvedWhileExpanding` states how the branches relate |
| Countdown.StepY | app/components/Countdown.jsx:95-111 | the new y of the branch the phase selects; each rule is characterised by its own row above, and `StepYKeepsBand` states the band all branches keep |
| Countdown.RotationHalvedWhileExpanding | app/components/Countdown.jsx:96-108 | while expanding a star turns exactly half as far from its start phase as in the other branches, which all turn at full speed |
| Countdown.ElapsedUnits | app/components/Countdown.jsx:138 | `currentTime` is the elapsed milliseconds divided by 50, non-negative once the clock has not gone back |
| Countdown.ElapsedMonotone | app/components/Countdown.jsx:138 | a later clock reading gives a later `currentTime` |
| Countdown.Star.constructor | app/components/Countdown.jsx:63-91 | every field as the constructor sets it from the six draws (`BuiltFrom`): x = centerx, y = centery + orbital, yOrigin == originalY == y, speed, start phase, rotation 0, hover and scatter heights, size, previous point and angle equal to the starting ones; and expansePos < hoverPos < originalY |
| Countdown.Star.Draw | app/components/Countdown.jsx:94-132 | `y` and `rotation` follow the branch the flags select, `prevR`/`prevX`/`prevY` become the current angle and point, and the band invariant is kept |
| Countdown.Display | app/components/Countdown.jsx:246 | the numeral is shown exactly when the counter is non-negative, and blank otherwise |
| Countdown.TriggerExpanse | app/components/Countdown.jsx:160-171 | the flags become (collapse, expanse, returning) = (F, T, F) and the first follow-up timer is pending; counter, interval, navigations and the second timer are untouched |
| Countdown.CountdownTick | app/components/Countdown.jsx:151-158 | a scheduled tick decreases the counter by exactly 1; the tick from 0 clears the interval and triggers the expansion; a cleared interval does nothing; the lifecycle invariant is preserved |
| Countdown.ExpandTimerFires | app/components/Countdown.jsx:171-173 | the first timer switches expanding to returning (F, F, T) and schedules the second; with no timer pending nothing changes |
| Countdown.ReturnTimerFires | app/components/Countdown.jsx:180-182 | the second timer clears returning (F, F, F) and navigates; with no timer pending nothing changes |
| Countdown.ApplyAdvancesOneStage | app/components/Countdown.jsx:148-184 | every callback either changes nothing or moves the launch exactly one stage forward |
| Countdown.RunLaunchSafe | app/components/Countdown.jsx:29-31 | whatever callbacks fire, in any order: the invariant holds and the stage never goes back; expanding and returning are never both on; collapse is never set, so the hover branch is unreachable; at most one navigation happens |
| Countdown.Ticks | app/components/Countdown.jsx:148-158 | n interval ticks keep the lifecycle invariant and publish at most n values, fewer only once the interval has been cleared |
| Countdown.TicksFrom | app/components/Countdown.jsx:148-158 | counting down from c, n ticks publish c-1, …, c-n and leave the counter at c-n; the expansion is triggered exactly on tick c+1 |
| Countdown.TicksWhenStopped | app/components/Countdown.jsx:155 | once the interval is cleared, ticks publish nothing and change nothing |
| Countdown.CountdownSequence | app/components/Countdown.jsx:148-158 | the published values are 5, 4, 3, 2, 1, 0, -1; the numeral shows 5 first and is blank at -1; the interval runs through the first five ticks; the sixth triggers the expansion exactly once, and later expiries change nothing |
| Countdown.LaunchCompletes | app/components/Countdown.jsx:148-184 | from the start, six ticks and the two timers end the lifecycle with exactly one navigation |
| Countdown.BlackHole.constructor | app/components/Countdown.jsx:135 | the effect creates 2500 distinct fresh valid stars, the i-th built from the i-th draws with id i (every field, as `Star.constructor` states), and starts counting from 5 with all flags off |
| Countdown.BlackHole.Frame | app/components/Countdown.jsx:137-141 | `loop()` draws every star exactly once, in the branch the flags select, at `currentTime` computed from the clock |
| Countdown.BlackHole.Expand | app/components/Countdown.jsx:160-163 | the method changes the control state exactly as `TriggerExpanse` |
| Countdown.BlackHole.Tick | app/components/Countdown.jsx:151-158 | the interval callback changes the control state exactly as `CountdownTick`, keeping the invariant |
| Countdown.BlackHole.FireExpandTimer | app/components/Countdown.jsx:171-173 | the first timer changes the control state exactly as `ExpandTimerFires` |
| Countdown.BlackHole.FireReturnTimer | app/components/Countdown.jsx:180-182 | the second timer changes the control state exactly as `ReturnTimerFires` |

## Left out

- **Shape boundary functions.** `getCirclePos`, `getSquarePos`, `getTrianglePos`, `getStarPos`, `getShapePosition` and the per-particle angle (`app/components/MorphParticles.jsx:81-142`, 190, 212) are built from cos, sin, tan, π and floating-point `%`, which have no exact model. Their results enter `MorphTarget` and `Swarm.Resize` as parameters.
- **`seek`.** `seek` (`app/components/MorphParticles.jsx:48-54`) normalises with a square root (`setMag`). `Swarm.Frame` takes each particle's steering force as a parameter.
- **Square roots.** `vel.mag()` and the scale factor of `limit` come in as parameters, tied to the vector by a precondition.
- **Rendering.** p5 `stroke`/`line`/`background`, Canvas 2D `save`/`translate`/`rotate`/`stroke`, the `fillRect` trail fade and `setDPI` are pure output. `Countdown.jsx` only uses `rotate` to place the start of each trail segment; that is why `rotate` is modelled only as a pure function with its lemmas.
- **Timers, `requestAnimationFrame` and the clock.**
  - Each callback is a method or transition function that the caller fires.
  - The one-second, 800 ms, 1.5 s and 1 s delays are not modelled.
  - A follow-up timer is a pending flag.
- **Teardown.** The cleanup the sketch returns from `p.setup` is ignored by p5. The effect's cleanup only removes the canvas. Neither affects the modelled state.
- **React and framer-motion UI.** The `phase` state, the animation variants, JSX, CSS keyframes, the DOM style changes in `triggerExpanse` and its timers, `router.push` and the navigation target are left out. The navigation is counted as `navigations`.
- **Floating point.** All arithmetic is exact. 0.7 · 305 is taken as exactly 213.5, and each `Math.random()` draw as an exact real in [0, 1).
- **Countdown.Display** returns the numeral rather than the `countdown-N` CSS class name it also selects.
- **The spawn draw of the outer orbit.** The code's outer orbit draw, `Math.random() * (maxorbit / 2) + maxorbit`, lies in [305, 457.5), so the orbit mean lies in [153, 305.5). `Countdown.Orbital` uses that range.

=== FILE: countdown.dfy ===
/** The orbital star field and launch countdown of app/components/Countdown.jsx.

    What is modelled: the `rotate` helper (with cos and sin as inputs), the
    arithmetic of the `Star` constructor (with the `Math.random()` draws as
    inputs in [0, 1)), the per-frame `y` and rotation update of `Star.draw`,
    the countdown interval, and the three lifecycle flags switched by
    `triggerExpanse` and its two follow-up timers. Canvas drawing, DOM styles,
    `Date.now()` and the navigation target are not part of this model: the
    elapsed time enters as a parameter and the navigation is counted. */
module Countdown {

  import opened RealFacts

  // ---------------------------------------------------------------------
  // Constants of the effect
  // ---------------------------------------------------------------------

  const MaxOrbit: real := 305.0
  const StarCount: nat := 2500
  const CountdownFrom: int := 5

  // ---------------------------------------------------------------------
  // rotate
  // ---------------------------------------------------------------------

  /** Squared distance of `p` from (cx, cy). */
  function DistSq(cx: real, cy: real, p: (real, real)): real
  {
    (p.0 - cx) * (p.0 - cx) + (p.1 - cy) * (p.1 - cy)
  }

  /** `rotate(cx, cy, x, y, angle)` with `c = cos(angle)` and `s = sin(angle)`
      given: the point (x, y) turned about (cx, cy). For a true cosine/sine
      pair (c^2 + s^2 = 1) it keeps its distance from the centre. */
  function Rotate(cx: real, cy: real, x: real, y: real, c: real, s: real): (p: (real, real))
    ensures c * c + s * s == 1.0 ==> DistSq(cx, cy, p) == DistSq(cx, cy, (x, y))
  {
    var u := c * (x - cx) + s * (y - cy);
    var v := c * (y - cy) - s * (x - cx);
    RotationIsometry(x - cx, y - cy, c, s, u, v);
    (u + cx, v + cy)
  }

  /** The offsets (u, v) = (c a + s b, c b - s a) have the length of (a, b)
      when c^2 + s^2 = 1. */
  lemma RotationIsometry(a: real, b: real, c: real, s: real, u: real, v: real)
    requires u == c * a + s * b && v == c * b - s * a
    ensures c * c + s * s == 1.0 ==> u * u + v * v == a * a + b * b
  {
    assert u * u + v * v == (c * c + s * s) * (a * a + b * b);
    if c * c + s * s == 1.0 {
      UnitFactor(c * c + s * s, a * a + b * b);
    }
  }

  /** The centre of rotation stays where it is. */
  lemma RotateFixesCentre(cx: real, cy: real, c: real, s: real)
    ensures Rotate(cx, cy, cx, cy, c, s) == (cx, cy)
  {
  }

  /** Rotating by a zero angle (cos 1, sin 0) moves nothing. */
  lemma RotateByZero(cx: real, cy: real, x: real, y: real)
    ensures Rotate(cx, cy, x, y, 1.0, 0.0) == (x, y)
  {
  }

  /** Where the canvas transform `translate(cx, cy); rotate(angle);
      translate(-cx, -cy)` draws the point (x, y), with `c = cos(angle)` and
      `s = sin(angle)`. */
  function CanvasRotate(cx: real, cy: real, x: real, y: real, c: real, s: real): (real, real)
  {
    (c * (x - cx) - s * (y - cy) + cx, s * (x - cx) + c * (y - cy) + cy)
  }

  /** `draw` starts each trail segment at `rotate` of the previous end point
      by `-prevR` (cos(-r) = cos r, sin(-r) = -sin r): exactly where that
      end point was drawn under the previous frame's canvas rotation by
      `prevR`, so consecutive segments join up. */
  lemma TrailStartMatchesCanvas(cx: real, cy: real, x: real, y: real, c: real, s: real)
    ensures Rotate(cx, cy, x, y, c, -s) == CanvasRotate(cx, cy, x, y, c, s)
  {
  }

  /** Rotating by an angle and then by its opposite (cos unchanged, sin
      negated) gives back the point. */
  lemma RotateInverse(cx: real, cy: real, x: real, y: real, c: real, s: real)
    requires c * c + s * s == 1.0
    ensures var p := Rotate(cx, cy, x, y, c, s); Rotate(cx, cy, p.0, p.1, c, -s) == (x, y)
  {
    var p := Rotate(cx, cy, x, y, c, s);
    var u, v := p.0 - cx, p.1 - cy;
    UndoFirst(x - cx, y - cy, c, s, u, v);
    UndoSecond(x - cx, y - cy, c, s, u, v);
    var q := Rotate(cx, cy, p.0, p.1, c, -s);
    assert q.0 == c * u + (-s) * v + cx;
    assert q.1 == c * v - (-s) * u + cy;
  }

  /** Turning the offsets (u, v) = (c a + s b, c b - s a) back recovers the first offset a. */
  lemma UndoFirst(a: real, b: real, c: real, s: real, u: real, v: real)
    requires c * c + s * s == 1.0
    requires u == c * a + s * b && v == c * b - s * a
    ensures c * u + (-s) * v == a
  {
    assert c * u == c * c * a + c * s * b;
    assert (-s) * v == s * s * a - c * s * b;
    assert c * c * a + s * s * a == (c * c + s * s) * a;
    UnitFactor(c * c + s * s, a);
  }

  /** ... and the second offset b. */
  lemma UndoSecond(a: real, b: real, c: real, s: real, u: real, v: real)
    requires c * c + s * s == 1.0
    requires u == c * a + s * b && v == c * b - s * a
    ensures c * v - (-s) * u == b
  {
    assert c * v == c * c * b - c * s * a;
    assert (-s) * u == -(c * s * a) - s * s * b;
    assert c * c * b + s * s * b == (c * c + s * s) * b;
    UnitFactor(c * c + s * s, b);
  }

  // ---------------------------------------------------------------------
  // Star construction
  // ---------------------------------------------------------------------

  /** The six `Math.random()` draws a star consumes, in source order. */
  datatype StarDraws = StarDraws(inner: real, outer: real, speed: real, rotation: real, spread: real, size: real)

  predicate ValidDraws(d: StarDraws)
  {
    InUnit(d.inner) && InUnit(d.outer) && InUnit(d.speed) && InUnit(d.rotation) && InUnit(d.spread) && InUnit(d.size)
  }

  /** The orbital radius: the mean of a draw in [1, 153.5) and a draw in
      [305, 457.5). */
  function Orbital(u1: real, u2: real): (o: real)
    requires InUnit(u1) && InUnit(u2)
    ensures 153.0 <= o < 305.5
  {
    ((u1 * (305.0 / 2.0) + 1.0) + (u2 * (305.0 / 2.0) + 305.0)) / 2.0
  }

  /** `max(0, orbital - 0.7 * maxorbit)`. */
  function CollapseBonus(orbital: real): (b: real)
    ensures b >= 0.0 && b >= orbital - 0.7 * MaxOrbit
    ensures b == 0.0 || b == orbital - 0.7 * MaxOrbit
  {
    var bonus := orbital - MaxOrbit * 0.7;
    if bonus < 0.0 then 0.0 else bonus
  }

  /** Where a collapsed star would hover: at least half the maximal orbit
      below the centre, and never as far out as the star's own orbit. */
  function HoverPos(centery: real, orbital: real): (h: real)
    ensures h >= centery + MaxOrbit / 2.0
    ensures orbital > MaxOrbit / 2.0 ==> h < centery + orbital
  {
    centery + MaxOrbit / 2.0 + CollapseBonus(orbital)
  }

  /** Where an expanding star heads: a band 10 units higher for every index
      step within each block of 100, plus up to 20 units of jitter. */
  function ExpansePos(centery: real, id: nat, u: real): (e: real)
    requires InUnit(u)
    ensures centery - 10.0 * (id % 100) as real <= e < centery - 10.0 * (id % 100) as real + 20.0
    ensures centery - 990.0 <= e < centery + 20.0
  {
    centery + (id % 100) as real * -10.0 + u * 20.0
  }

  /** Angular speed in radians per time unit: a draw in [1.5, 4) degrees. */
  function StarSpeed(u: real, pi: real): (sp: real)
    requires InUnit(u) && pi > 0.0
    ensures 1.5 * pi / 180.0 <= sp < 4.0 * pi / 180.0
  {
    SpeedAbove(u, pi);
    SpeedBelow(u, pi);
    (u * 2.5 + 1.5) * pi / 180.0
  }

  lemma SpeedAbove(u: real, pi: real)
    requires InUnit(u) && pi > 0.0
    ensures 1.5 * pi / 180.0 <= (u * 2.5 + 1.5) * pi / 180.0
  {
    ProductNonneg(u * 2.5, pi);
    assert (u * 2.5 + 1.5) * pi == (u * 2.5) * pi + 1.5 * pi;
  }

  lemma SpeedBelow(u: real, pi: real)
    requires InUnit(u) && pi > 0.0
    ensures (u * 2.5 + 1.5) * pi / 180.0 < 4.0 * pi / 180.0
  {
    ProductStrictMonotone(u * 2.5 + 1.5, 4.0, pi);
  }

  /** Initial phase: a draw in [0, 2 pi). */
  function StartRotation(u: real, pi: real): (r: real)
    requires InUnit(u) && pi > 0.0
    ensures 0.0 <= r < 2.0 * pi
  {
    ProductNonneg(u, pi);
    ProductStrictMonotone(u, 1.0, pi);
    u * pi * 2.0
  }

  /** Stroke width: a draw in [0.5, 4.5). */
  function StarSize(u: real): (w: real)
    requires InUnit(u)
    ensures 0.5 <= w < 4.5
  {
    u * 4.0 + 0.5
  }

  // ---------------------------------------------------------------------
  // Per-frame update rules of Star.draw
  // ---------------------------------------------------------------------

  /** Lifecycle flags shared by every star. */
  datatype Flags = Flags(collapse: bool, expanse: bool, returning: bool)

  const Calm: Flags := Flags(false, false, false)

  /** The branch of `Star.draw` the flags select. */
  datatype Phase = Orbiting | Hovering | Expanding | Returning

  function PhaseOf(f: Flags): (p: Phase)
    ensures p == Hovering <==> f.collapse && !f.expanse && !f.returning
    ensures p == Expanding <==> f.expanse && !f.returning
    ensures p == Returning <==> f.returning
  {
    if !f.expanse && !f.returning then
      (if !f.collapse then Orbiting else Hovering)
    else if f.expanse && !f.returning then
      Expanding
    else
      Returning
  }

  /** Orbiting: when y > yOrigin, y decreases by 2.5 a frame; when
      y < yOrigin - 4, the gap yOrigin - y shrinks by a tenth; for y in
      [yOrigin - 4, yOrigin] nothing moves. */
  function OrbitY(y: real, yOrigin: real): (r: real)
    ensures y > yOrigin ==> r == y - 2.5
    ensures yOrigin - 4.0 <= y <= yOrigin ==> r == y
    ensures y < yOrigin - 4.0 ==> yOrigin - r == (yOrigin - y) * 0.9 && y < r < yOrigin
  {
    var y1 := if y > yOrigin then y - 2.5 else y;
    if y1 < yOrigin - 4.0 then y1 + (yOrigin - y1) / 10.0 else y1
  }

  /** Hovering (the collapse branch): when y > hoverPos, the gap
      y - hoverPos shrinks by a fifth; when y < hoverPos - 4, y increases
      by 2.5; for y in [hoverPos - 4, hoverPos] nothing moves. */
  function HoverY(y: real, hoverPos: real): (r: real)
    ensures y > hoverPos ==> r - hoverPos == (y - hoverPos) * 0.8 && hoverPos < r < y
    ensures hoverPos - 4.0 <= y <= hoverPos ==> r == y
    ensures y < hoverPos - 4.0 ==> r == y + 2.5 && r < hoverPos
  {
    var y1 := if y > hoverPos then y - (hoverPos - y) / -5.0 else y;
    if y1 < hoverPos - 4.0 then y1 + 2.5 else y1
  }

  /** Expanding: when y > expansePos, the gap y - expansePos shrinks by
      1/80 a frame and never reaches 0; when y <= expansePos nothing moves. */
  function ExpandY(y: real, expansePos: real): (r: real)
    ensures y > expansePos ==> r - expansePos == (y - expansePos) * (79.0 / 80.0) && expansePos < r < y
    ensures y <= expansePos ==> r == y
  {
    if y > expansePos then y - (expansePos - y) / -80.0 else y
  }

  function Abs(x: real): real
  {
    if x < 0.0 then -x else x
  }

  /** Returning: farther than 2 units from the original height the gap
      shrinks by 1/50 without overshooting; within 2 units the star snaps
      onto it. */
  function ReturnY(y: real, originalY: real): (r: real)
    ensures Abs(y - originalY) > 2.0 ==> r - originalY == (y - originalY) * 0.98
    ensures y < originalY - 2.0 ==> y < r < originalY
    ensures y > originalY + 2.0 ==> originalY < r < y
    ensures Abs(y - originalY) <= 2.0 ==> r == originalY
  {
    if Abs(y - originalY) > 2.0 then y + (originalY - y) / 50.0 else originalY
  }

  /** The new `y` of one `Star.draw` in the given phase. */
  function StepY(phase: Phase, y: real, yOrigin: real, hoverPos: real, expansePos: real, originalY: real): real
  {
    match phase
    case Orbiting => OrbitY(y, yOrigin)
    case Hovering => HoverY(y, hoverPos)
    case Expanding => ExpandY(y, expansePos)
    case Returning => ReturnY(y, originalY)
  }

  /** The rotation `Star.draw` sets: full angular speed, halved while expanding. */
  function RotationAt(phase: Phase, startRotation: real, speed: real, currentTime: real): real
  {
    if phase == Expanding then startRotation + currentTime * (speed / 2.0)
    else startRotation + currentTime * speed
  }

  /** Expanding stars turn exactly half as far from their start phase as
      the other phases make them turn; every other phase turns at full speed. */
  lemma RotationHalvedWhileExpanding(phase: Phase, startRotation: real, speed: real, currentTime: real)
    ensures RotationAt(Expanding, startRotation, speed, currentTime) - startRotation
         == (RotationAt(Orbiting, startRotation, speed, currentTime) - startRotation) / 2.0
    ensures phase != Expanding ==>
              RotationAt(phase, startRotation, speed, currentTime) == RotationAt(Orbiting, startRotation, speed, currentTime)
  {
    assert currentTime * (speed / 2.0) == (currentTime * speed) / 2.0;
  }

  /** `currentTime` of `loop()`: the milliseconds since the effect started,
      in units of 50 ms. */
  function ElapsedUnits(now: int, startTime: int): (t: real)
    ensures now >= startTime ==> t >= 0.0
    ensures t * 50.0 == (now - startTime) as real
  {
    (now - startTime) as real / 50.0
  }

  /** Later clock readings give later times, so every star's rotation
      angle advances monotonically with the clock (for a positive speed). */
  lemma ElapsedMonotone(now1: int, now2: int, startTime: int)
    requires now1 <= now2
    ensures ElapsedUnits(now1, startTime) <= ElapsedUnits(now2, startTime)
  {
  }

  /** Every phase keeps expansePos < y <= originalY, given the order
      expansePos < hoverPos < originalY the constructor establishes. */
  lemma StepYKeepsBand(phase: Phase, y: real, yOrigin: real, hoverPos: real, expansePos: real, originalY: real)
    requires yOrigin == originalY
    requires expansePos < hoverPos < originalY
    requires expansePos < y <= originalY
    ensures expansePos < StepY(phase, y, yOrigin, hoverPos, expansePos, originalY) <= originalY
  {
  }

  /** The orbit rule has every resting height within 4 units above the
      origin as a fixed point, the origin itself included. */
  lemma OrbitFixedPoints(y: real, yOrigin: real)
    requires yOrigin - 4.0 <= y <= yOrigin
    ensures OrbitY(y, yOrigin) == y
    ensures OrbitY(yOrigin, yOrigin) == yOrigin
  {
  }

  /** `n` returning frames. */
  function ReturnFrames(y: real, originalY: real, n: nat): real
    decreases n
  {
    if n == 0 then y else ReturnFrames(ReturnY(y, originalY), originalY, n - 1)
  }

  /** Once on its original height a returning star stays there. */
  lemma {:induction false} ReturnStays(originalY: real, n: nat)
    ensures ReturnFrames(originalY, originalY, n) == originalY
    decreases n
  {
    if n > 0 {
      ReturnStays(originalY, n - 1);
    }
  }

  /** A returning star lands exactly on its original height after at most
      25 frames per unit of starting distance (and at least one frame). */
  lemma {:induction false} ReturnSettles(y: real, originalY: real, n: nat)
    requires n >= 1 && n as real >= 25.0 * Abs(y - originalY)
    ensures ReturnFrames(y, originalY, n) == originalY
    decreases n
  {
    var next := ReturnY(y, originalY);
    if Abs(y - originalY) > 2.0 {
      assert Abs(next - originalY) == Abs(y - originalY) * 0.98;
      ReturnSettles(next, originalY, n - 1);
    } else {
      ReturnStays(originalY, n - 1);
    }
  }

  /** `n` expanding frames. */
  function ExpandFrames(y: real, expansePos: real, n: nat): real
    decreases n
  {
    if n == 0 then y else ExpandFrames(ExpandY(y, expansePos), expansePos, n - 1)
  }

  /** An expanding star's y decreases towards its scatter height without
      ever reaching it, and never increases. */
  lemma {:induction false} ExpandApproaches(y: real, expansePos: real, n: nat)
    requires y > expansePos
    ensures expansePos < ExpandFrames(y, expansePos, n) <= y
    decreases n
  {
    if n > 0 {
      ExpandApproaches(ExpandY(y, expansePos), expansePos, n - 1);
    }
  }

  // ---------------------------------------------------------------------
  // Star
  // ---------------------------------------------------------------------

  class Star {
    const x: real
    var y: real
    const yOrigin: real
    const originalY: real
    const speed: real
    const startRotation: real
    var rotation: real
    const id: nat
    const hoverPos: real
    const expansePos: real
    var prevR: real
    var prevX: real
    var prevY: real
    const size: real

    /** The order of the three heights the constructor sets up, and the
        band `y` stays in through every phase. */
    predicate Valid()
      reads this
    {
      && yOrigin == originalY
      && expansePos < hoverPos < originalY
      && expansePos < y <= originalY
    }

    /** `new Star()` as the `id`-th star, with its six draws. */
    constructor (centerx: real, centery: real, id: nat, d: StarDraws, pi: real)
      requires ValidDraws(d) && pi > 0.0
      ensures Valid()
      ensures BuiltFrom(centerx, centery, id, d, pi)
    {
      var orbital := Orbital(d.inner, d.outer);
      x := centerx;
      y := centery + orbital;
      yOrigin := centery + orbital;
      originalY := centery + orbital;
      speed := StarSpeed(d.speed, pi);
      startRotation := StartRotation(d.rotation, pi);
      rotation := 0.0;
      this.id := id;
      hoverPos := HoverPos(centery, orbital);
      expansePos := ExpansePos(centery, id, d.spread);
      prevR := StartRotation(d.rotation, pi);
      prevX := centerx;
      prevY := centery + orbital;
      size := StarSize(d.size);
    }

    /** Every field as `new Star()` sets it for the `id`-th star with draws
        `d`: on its orbit below the centre, resting and original heights
        equal to the starting one, the previous point and angle equal to the
        starting ones. */
    predicate BuiltFrom(centerx: real, centery: real, id: nat, d: StarDraws, pi: real)
      reads this
    {
      && ValidDraws(d) && pi > 0.0
      && this.id == id
      && x == centerx && y == centery + Orbital(d.inner, d.outer)
      && yOrigin == y && originalY == y
      && speed == StarSpeed(d.speed, pi)
      && startRotation == StartRotation(d.rotation, pi) && rotation == 0.0
      && hoverPos == HoverPos(centery, Orbital(d.inner, d.outer))
      && expansePos == ExpansePos(centery, id, d.spread)
      && prevR == startRotation && prevX == x && prevY == y
      && size == StarSize(d.size)
    }

    /** What one `draw` in `phase` at time `currentTime` leaves behind, for a
        star whose height was `oldY`. */
    predicate DrawnFrom(oldY: real, phase: Phase, currentTime: real)
      reads this
    {
      && y == StepY(phase, oldY, yOrigin, hoverPos, expansePos, originalY)
      && rotation == RotationAt(phase, startRotation, speed, currentTime)
      && prevR == rotation && prevX == x && prevY == y
    }

    /** The state update of `draw`; the canvas stroke is not modelled. */
    method Draw(phase: Phase, currentTime: real)
      modifies this
      ensures old(Valid()) ==> Valid()
      ensures DrawnFrom(old(y), phase, currentTime)
    {
      if Valid() {
        StepYKeepsBand(phase, y, yOrigin, hoverPos, expansePos, originalY);
      }
      match phase {
        case Orbiting =>
          rotation := startRotation + currentTime * speed;
          if y > yOrigin { y := y - 2.5; }
          if y < yOrigin - 4.0 { y := y + (yOrigin - y) / 10.0; }
        case Hovering =>
          rotation := startRotation + currentTime * speed;
          if y > hoverPos { y := y - (hoverPos - y) / -5.0; }
          if y < hoverPos - 4.0 { y := y + 2.5; }
        case Expanding =>
          rotation := startRotation + currentTime * (speed / 2.0);
          if y > expansePos { y := y - (expansePos - y) / -80.0; }
        case Returning =>
          rotation := startRotation + currentTime * speed;
          if Abs(y - originalY) > 2.0 {
            y := y + (originalY - y) / 50.0;
          } else {
            y := originalY;
          }
      }
      prevR := rotation;
      prevX := x;
      prevY := y;
    }
  }

  // ---------------------------------------------------------------------
  // Countdown and lifecycle
  // ---------------------------------------------------------------------

  /** The effect's control state: the countdown counter, whether its interval
      is still scheduled, the lifecycle flags, which follow-up timer is
      pending, and how many times the page has navigated away. */
  datatype Launch = Launch(counter: int, ticking: bool, flags: Flags,
                           expandTimer: bool, returnTimer: bool, navigations: nat)

  /** Counting down, showing `c`. */
  function Counting(c: int): Launch
  {
    Launch(c, true, Calm, false, false, 0)
  }

  const Started: Launch := Counting(CountdownFrom)
  const Expanded: Launch := Launch(-1, false, Flags(false, true, false), true, false, 0)
  const Returned: Launch := Launch(-1, false, Flags(false, false, true), false, true, 0)
  const Done: Launch := Launch(-1, false, Calm, false, false, 1)

  /** The reachable control states: counting from 5 to 0, then expanding,
      returning and done. */
  predicate Inv(s: Launch)
  {
    (0 <= s.counter <= CountdownFrom && s == Counting(s.counter))
    || s == Expanded || s == Returned || s == Done
  }

  /** How far the launch has progressed: 0 to 5 while counting, then 6, 7, 8. */
  function Rank(s: Launch): int
  {
    if s == Expanded then 6
    else if s == Returned then 7
    else if s == Done then 8
    else CountdownFrom - s.counter
  }

  /** What the numeral shows for a counter value: nothing once it is negative. */
  datatype Numeral = Digit(value: nat) | Blank

  function Display(counter: int): (n: Numeral)
    ensures n == Blank <==> counter < 0
    ensures counter >= 0 ==> n == Digit(counter)
  {
    if counter >= 0 then Digit(counter) else Blank
  }

  /** `triggerExpanse`: stop collapsing and returning, start expanding, and
      schedule the first follow-up timer. */
  function TriggerExpanse(s: Launch): (r: Launch)
    ensures r.flags == Flags(false, true, false) && r.expandTimer
    ensures r.counter == s.counter && r.ticking == s.ticking && r.navigations == s.navigations
            && r.returnTimer == s.returnTimer
  {
    s.(flags := Flags(false, true, false), expandTimer := true)
  }

  /** The one-second interval callback: decrement and publish; on going
      negative, clear the interval and trigger the expansion. Once the
      interval is cleared no callback runs. */
  function CountdownTick(s: Launch): (r: Launch)
    ensures Inv(s) ==> Inv(r)
    ensures !s.ticking ==> r == s
    ensures Inv(s) && s.ticking ==> r.counter == s.counter - 1
    ensures Inv(s) && s.ticking && s.counter == 0 ==> r == Expanded
  {
    if !s.ticking then s
    else
      var c := s.counter - 1;
      if c < 0 then TriggerExpanse(s.(counter := c, ticking := false))
      else s.(counter := c)
  }

  /** The 1.5 s timer: expanding gives way to returning; the second timer is
      scheduled. */
  function ExpandTimerFires(s: Launch): (r: Launch)
    ensures Inv(s) ==> Inv(r)
    ensures s == Expanded ==> r == Returned
    ensures !s.expandTimer ==> r == s
  {
    if !s.expandTimer then s
    else s.(flags := s.flags.(expanse := false, returning := true), expandTimer := false, returnTimer := true)
  }

  /** The 1 s timer: returning ends and the page navigates away. */
  function ReturnTimerFires(s: Launch): (r: Launch)
    ensures Inv(s) ==> Inv(r)
    ensures s == Returned ==> r == Done
    ensures !s.returnTimer ==> r == s
  {
    if !s.returnTimer then s
    else s.(flags := s.flags.(returning := false), returnTimer := false, navigations := s.navigations + 1)
  }

  /** The callbacks that can reach the control state. */
  datatype LaunchEvent = Second | ExpandTimer | ReturnTimer

  function Apply(s: Launch, e: LaunchEvent): Launch
  {
    match e
    case Second => CountdownTick(s)
    case ExpandTimer => ExpandTimerFires(s)
    case ReturnTimer => ReturnTimerFires(s)
  }

  function RunLaunch(s: Launch, events: seq<LaunchEvent>): Launch
    decreases events
  {
    if events == [] then s else RunLaunch(Apply(s, events[0]), events[1..])
  }

  /** Every callback either changes nothing or moves the launch exactly one
      stage forward: the lifecycle never goes back. */
  lemma ApplyAdvancesOneStage(s: Launch, e: LaunchEvent)
    requires Inv(s)
    ensures Inv(Apply(s, e))
    ensures Apply(s, e) == s || Rank(Apply(s, e)) == Rank(s) + 1
  {
  }

  /** Whatever the callbacks and their order: the invariant holds, the
      lifecycle has not gone back, expanding and returning are never both
      on, the collapse flag is never set (so the hover branch of `draw` is
      never taken), and the page navigates at most once. */
  lemma {:induction false} RunLaunchSafe(s: Launch, events: seq<LaunchEvent>)
    requires Inv(s)
    ensures Inv(RunLaunch(s, events))
    ensures Rank(s) <= Rank(RunLaunch(s, events))
    ensures !(RunLaunch(s, events).flags.expanse && RunLaunch(s, events).flags.returning)
    ensures PhaseOf(RunLaunch(s, events).flags) != Hovering
    ensures RunLaunch(s, events).navigations <= 1
    decreases events
  {
    if events != [] {
      ApplyAdvancesOneStage(s, events[0]);
      RunLaunchSafe(Apply(s, events[0]), events[1..]);
    }
  }

  /** `n` interval ticks in a row, with the values passed to `setCountdown`. */
  function Ticks(s: Launch, n: nat): (r: (Launch, seq<int>))
    ensures Inv(s) ==> Inv(r.0)
    ensures |r.1| <= n
    ensures |r.1| < n ==> !r.0.ticking
    decreases n
  {
    if n == 0 || !s.ticking then (s, [])
    else
      var next := CountdownTick(s);
      var rest := Ticks(next, n - 1);
      (rest.0, [next.counter] + rest.1)
  }

  /** Counting down from `c`: after `n <= c + 1` ticks the counter reads
      `c - n`, the values published were c-1, c-2, ..., c-n, and the
      expansion has been triggered exactly when `n == c + 1`. */
  lemma {:induction false} TicksFrom(c: int, n: nat)
    requires 0 <= c <= CountdownFrom && n <= c + 1
    ensures Ticks(Counting(c), n).0 == (if n == c + 1 then Expanded else Counting(c - n))
    ensures |Ticks(Counting(c), n).1| == n
    ensures forall i :: 0 <= i < n ==> Ticks(Counting(c), n).1[i] == c - 1 - i
    decreases n
  {
    if n > 0 {
      if c == 0 {
        assert CountdownTick(Counting(0)) == Expanded;
      } else {
        TicksFrom(c - 1, n - 1);
      }
    }
  }

  /** Ticks after the interval was cleared have no effect. */
  lemma TicksWhenStopped(s: Launch, n: nat)
    requires !s.ticking
    ensures Ticks(s, n) == (s, [])
  {
  }

  /** The countdown as the page shows it: 5, then 4, 3, 2, 1, 0 and a blank,
      one per second; the sixth tick triggers the expansion; further
      expiries change nothing. */
  lemma CountdownSequence(extra: nat)
    ensures Ticks(Started, 6).0 == Expanded
    ensures [CountdownFrom] + Ticks(Started, 6).1 == [5, 4, 3, 2, 1, 0, -1]
    ensures Display(Started.counter) == Digit(5)
    ensures Display(Ticks(Started, 6).0.counter) == Blank
    ensures forall k :: 0 <= k < 5 ==> Ticks(Started, k).0.ticking
    ensures CountdownTick(Expanded) == Expanded
    ensures Ticks(Expanded, extra) == (Expanded, [])
  {
    TicksFrom(CountdownFrom, 6);
    var published := Ticks(Started, 6).1;
    assert published == [4, 3, 2, 1, 0, -1];
    forall k | 0 <= k < 5
      ensures Ticks(Started, k).0.ticking
    {
      TicksFrom(CountdownFrom, k);
    }
    TicksWhenStopped(Expanded, extra);
  }

  /** From the start, six seconds and the two timers complete the launch:
      the page navigates exactly once. */
  lemma LaunchCompletes()
    ensures RunLaunch(Started, [Second, Second, Second, Second, Second, Second, ExpandTimer, ReturnTimer]) == Done
    ensures Done.navigations == 1
  {
  }

  // ---------------------------------------------------------------------
  // The effect as a whole
  // ---------------------------------------------------------------------

  /** The closure state of the component's effect: the stars, the countdown
      and the lifecycle flags. */
  class BlackHole {
    const centerx: real
    const centery: real
    const startTime: int
    var stars: seq<Star>
    var counter: int
    var ticking: bool
    var collapse: bool
    var expanse: bool
    var returning: bool
    var expandTimer: bool
    var returnTimer: bool
    var navigations: nat

    function State(): Launch
      reads this
    {
      Launch(counter, ticking, Flags(collapse, expanse, returning), expandTimer, returnTimer, navigations)
    }

    /** The control invariant, every star valid, and no star listed twice. */
    predicate Valid()
      reads this, stars
    {
      && Inv(State())
      && (forall i :: 0 <= i < |stars| ==> stars[i].Valid())
      && (forall i, j :: 0 <= i < j < |stars| ==> stars[i] != stars[j])
    }

    /** The effect's set-up: 2500 stars numbered in creation order, then
        the countdown starting at 5. The effect also calls `loop()` once
        right after creating the stars; the caller's first `Frame(now)`
        stands for that call, so every star's rotation is still 0 here. */
    constructor (width: real, height: real, pi: real, now: int, draws: seq<StarDraws>)
      requires pi > 0.0 && |draws| == StarCount
      requires forall i :: 0 <= i < |draws| ==> ValidDraws(draws[i])
      ensures Valid() && State() == Started
      ensures centerx == width / 2.0 && centery == height / 2.0 && startTime == now
      ensures |stars| == |draws|
      ensures forall i :: 0 <= i < |stars| ==>
                fresh(stars[i]) && stars[i].BuiltFrom(centerx, centery, i, draws[i], pi)
    {
      centerx := width / 2.0;
      centery := height / 2.0;
      startTime := now;
      stars := [];
      counter := CountdownFrom;
      ticking := true;
      collapse := false;
      expanse := false;
      returning := false;
      expandTimer := false;
      returnTimer := false;
      navigations := 0;
      new;
      var i := 0;
      while i < |draws|
        invariant 0 <= i <= |draws| && |stars| == i
        invariant State() == Started
        invariant forall j :: 0 <= j < i ==>
                    fresh(stars[j]) && stars[j].Valid() && stars[j].BuiltFrom(centerx, centery, j, draws[j], pi)
        invariant forall j, k :: 0 <= j < k < i ==> stars[j] != stars[k]
      {
        var star := new Star(centerx, centery, i, draws[i], pi);
        stars := stars + [star];
        i := i + 1;
      }
    }

    /** `loop()`'s state update at clock reading `now`: every star drawn
        once, in order, in the phase the flags select. */
    method Frame(now: int)
      requires Valid()
      modifies stars
      ensures Valid()
      ensures forall i :: 0 <= i < |stars| ==>
                stars[i].DrawnFrom(old(stars[i].y), PhaseOf(State().flags), ElapsedUnits(now, startTime))
    {
      var currentTime := ElapsedUnits(now, startTime);
      var phase := PhaseOf(Flags(collapse, expanse, returning));
      var i := 0;
      while i < |stars|
        invariant 0 <= i <= |stars|
        invariant forall j :: 0 <= j < |stars| ==> stars[j].Valid()
        invariant forall j :: 0 <= j < i ==> stars[j].DrawnFrom(old(stars[j].y), phase, currentTime)
        invariant forall j :: i <= j < |stars| ==> stars[j].y == old(stars[j].y)
      {
        stars[i].Draw(phase, currentTime);
        i := i + 1;
      }
    }

    /** `triggerExpanse`. */
    method Expand()
      modifies this
      ensures State() == TriggerExpanse(old(State()))
      ensures stars == old(stars)
    {
      collapse := false;
      expanse := true;
      returning := false;
      expandTimer := true;
    }

    /** The countdown interval callback. */
    method Tick()
      requires Valid()
      modifies this
      ensures Valid() && stars == old(stars)
      ensures State() == CountdownTick(old(State()))
    {
      if ticking {
        counter := counter - 1;
        if counter < 0 {
          ticking := false;
          Expand();
        }
      }
    }

    /** The first follow-up timer of `triggerExpanse`. */
    method FireExpandTimer()
      requires Valid()
      modifies this
      ensures Valid() && stars == old(stars)
      ensures State() == ExpandTimerFires(old(State()))
    {
      if expandTimer {
        expanse := false;
        returning := true;
        expandTimer := false;
        returnTimer := true;
      }
    }

    /** The second follow-up timer: returning ends and the page navigates. */
    method FireReturnTimer()
      requires Valid()
      modifies this
      ensures Valid() && stars == old(stars)
      ensures State() == ReturnTimerFires(old(State()))
    {
      if returnTimer {
        returning := false;
        returnTimer := false;
        navigations := navigations + 1;
      }
    }
  }
}

=== FILE: morph_particles.dfy ===
/** The shape-morphing particle swarm of app/components/MorphParticles.jsx.

    What is modelled: the morph scheduler (four variables reassigned by the
    800 ms interval and by each frame), the cubic ease-in-out used for the
    morph progress, the linear interpolation of the per-particle target, the
    per-particle integration step and the speed-to-stroke mapping of `draw`.
    The shape boundary functions use cos/sin/tan and are not part of this
    model: their results enter as parameters. */
module MorphParticles {

  import opened RealFacts

  // ---------------------------------------------------------------------
  // Constants of the sketch
  // ---------------------------------------------------------------------

  const ParticlesCount: nat := 1500
  const MaxSpeed: real := 8.0
  const MaxForce: real := 0.9
  const MorphDuration: nat := 45
  const TotalShapes: nat := 4

  // Shape indices; the sketch uses plain integers for them.
  const Circle: int := 0
  const Square: int := 1
  const Triangle: int := 2
  const Star: int := 3

  /** JavaScript's integer quotient `Math.trunc(a / n)`: rounded toward zero. */
  function JsQuot(a: int, n: int): int
    requires n > 0
  {
    if a >= 0 then a / n else -((-a) / n)
  }

  /** JavaScript's `%` on integers: the remainder takes the sign of the dividend. */
  function JsRem(a: int, n: int): (r: int)
    requires n > 0
    ensures a == JsQuot(a, n) * n + r
    ensures a >= 0 ==> 0 <= r < n
    ensures a < 0 ==> -n < r <= 0
  {
    if a >= 0 then
      assert a == (a / n) * n + a % n;
      a % n
    else
      assert -a == ((-a) / n) * n + (-a) % n;
      assert a == (-((-a) / n)) * n + -((-a) % n);
      -((-a) % n)
  }

  /** The shape after `shape` in the cycle circle, square, triangle, star. */
  function NextShape(shape: int): (r: int)
    ensures 0 <= shape ==> 0 <= r < TotalShapes
    ensures 0 <= shape < TotalShapes - 1 ==> r == shape + 1
    ensures shape == TotalShapes - 1 ==> r == Circle
  {
    JsRem(shape + 1, TotalShapes)
  }

  // ---------------------------------------------------------------------
  // Morph scheduler
  // ---------------------------------------------------------------------

  /** The four variables `currentShape`, `targetShape`, `isMorphing`, `morphFrame`. */
  datatype MorphState = MorphState(currentShape: int, targetShape: int, isMorphing: bool, morphFrame: int)

  const InitialMorph: MorphState := MorphState(Circle, Circle, false, 0)

  /** A steady state showing `shape`. */
  function Steady(shape: int): MorphState
  {
    MorphState(shape, shape, false, 0)
  }

  /** The scheduler invariant: both shapes are valid indices; when steady the
      target is the current shape and the frame counter is 0; when morphing
      the target is the next shape and the counter is below the duration. */
  predicate Inv(s: MorphState)
  {
    && 0 <= s.currentShape < TotalShapes
    && 0 <= s.targetShape < TotalShapes
    && (if s.isMorphing
        then s.targetShape == NextShape(s.currentShape) && 0 <= s.morphFrame < MorphDuration
        else s.morphFrame == 0 && s.targetShape == s.currentShape)
  }

  /** The interval callback: start a morph to the next shape unless one is running. */
  function TickStep(s: MorphState): (r: MorphState)
    ensures Inv(s) ==> Inv(r)
    ensures s.isMorphing ==> r == s
    ensures !s.isMorphing ==> r.isMorphing && r.morphFrame == 0 && r.targetShape == NextShape(s.currentShape)
    ensures r.currentShape == s.currentShape
  {
    if !s.isMorphing then
      s.(isMorphing := true, morphFrame := 0, targetShape := NextShape(s.currentShape))
    else
      s
  }

  /** The morph part of `p.draw`: count one frame; on reaching the duration,
      settle on the target shape. */
  function FrameStep(s: MorphState): (r: MorphState)
    ensures Inv(s) ==> Inv(r)
    ensures !s.isMorphing ==> r == s
    ensures Inv(s) && s.isMorphing && s.morphFrame + 1 < MorphDuration ==> r == s.(morphFrame := s.morphFrame + 1)
    ensures Inv(s) && s.isMorphing && s.morphFrame + 1 == MorphDuration ==> r == Steady(s.targetShape)
    ensures Inv(s) && r.isMorphing ==> 0 < r.morphFrame < MorphDuration
  {
    if s.isMorphing then
      var frame := s.morphFrame + 1;
      if frame >= MorphDuration then
        s.(isMorphing := false, morphFrame := 0, currentShape := s.targetShape)
      else
        s.(morphFrame := frame)
    else
      s
  }

  /** `morphFrame / MORPH_DURATION`, the progress fed to the easing. */
  function Progress(s: MorphState): (p: real)
    requires Inv(s)
    ensures 0.0 <= p < 1.0
    ensures s.morphFrame > 0 ==> 0.0 < p
  {
    s.morphFrame as real / MorphDuration as real
  }

  /** The progress read by the particle loop lies strictly inside (0, 1):
      the loop runs after the frame step, which never leaves the counter at 0
      while morphing. */
  lemma ProgressAfterFrame(s: MorphState)
    requires Inv(s)
    ensures FrameStep(s).isMorphing ==> 0.0 < Progress(FrameStep(s)) < 1.0
  {
  }

  /** `n` consecutive frame steps. */
  function Frames(s: MorphState, n: nat): MorphState
    decreases n
  {
    if n == 0 then s else Frames(FrameStep(s), n - 1)
  }

  /** While a morph has not reached its duration, each frame adds one to the counter. */
  lemma {:induction false} FramesWhileMorphing(s: MorphState, n: nat)
    requires Inv(s) && s.isMorphing
    requires s.morphFrame + n < MorphDuration
    ensures Frames(s, n) == s.(morphFrame := s.morphFrame + n)
    decreases n
  {
    if n > 0 {
      FramesWhileMorphing(FrameStep(s), n - 1);
    }
  }

  /** Frames change nothing while steady. */
  lemma {:induction false} FramesWhileSteady(s: MorphState, n: nat)
    requires !s.isMorphing
    ensures Frames(s, n) == s
    decreases n
  {
    if n > 0 {
      FramesWhileSteady(FrameStep(s), n - 1);
    }
  }

  /** Frames compose. */
  lemma {:induction false} FramesAdd(s: MorphState, m: nat, n: nat)
    ensures Frames(s, m + n) == Frames(Frames(s, m), n)
    decreases m
  {
    if m > 0 {
      FramesAdd(FrameStep(s), m - 1, n);
    }
  }

  /** A running morph completes after exactly `MorphDuration - morphFrame` frames. */
  lemma MorphCompletes(s: MorphState)
    requires Inv(s) && s.isMorphing
    ensures Frames(s, MorphDuration - s.morphFrame) == Steady(s.targetShape)
  {
    var k := MorphDuration - 1 - s.morphFrame;
    FramesWhileMorphing(s, k);
    FramesAdd(s, k, 1);
  }

  /** One tick from steady followed by 45 frames: steady on the next shape.
      After only 44 frames the morph is still running. */
  lemma {:induction false} TickThenFrames(s: MorphState)
    requires Inv(s) && !s.isMorphing
    ensures Frames(TickStep(s), MorphDuration) == Steady(NextShape(s.currentShape))
    ensures Frames(TickStep(s), MorphDuration - 1).isMorphing
  {
    MorphCompletes(TickStep(s));
    FramesWhileMorphing(TickStep(s), MorphDuration - 1);
  }

  /** A full morph cycle from a steady state. */
  function Cycle(s: MorphState): MorphState
  {
    Frames(TickStep(s), MorphDuration)
  }

  /** A cycle from the steady state on `shape` is the steady state on the
      next shape. */
  lemma CycleSteady(shape: int)
    requires 0 <= shape < TotalShapes
    ensures Cycle(Steady(shape)) == Steady(NextShape(shape))
  {
    TickThenFrames(Steady(shape));
  }

  /** Four morph cycles bring the swarm back to the shape it started on. */
  lemma FourCyclesReturn(s: MorphState)
    requires Inv(s) && !s.isMorphing
    ensures Cycle(Cycle(Cycle(Cycle(s)))) == s
  {
    var c0 := s.currentShape;
    assert s == Steady(c0);
    var c1 := NextShape(c0);
    var c2 := NextShape(c1);
    var c3 := NextShape(c2);
    assert 0 <= c1 < TotalShapes && 0 <= c2 < TotalShapes && 0 <= c3 < TotalShapes;
    assert NextShape(c3) == c0 by {
      if c0 == Circle { } else if c0 == Square { } else if c0 == Triangle { } else { }
    }
    CycleSteady(c0);
    assert Cycle(s) == Steady(c1);
    CycleSteady(c1);
    assert Cycle(Cycle(s)) == Steady(c2);
    CycleSteady(c2);
    assert Cycle(Cycle(Cycle(s))) == Steady(c3);
    CycleSteady(c3);
  }

  /** The two events that drive the scheduler. */
  datatype MorphEvent = Tick | Frame

  function Run(s: MorphState, events: seq<MorphEvent>): MorphState
    decreases events
  {
    if events == [] then s
    else
      var next := if events[0] == Tick then TickStep(s) else FrameStep(s);
      Run(next, events[1..])
  }

  /** Across any interleaving of ticks and frames the invariant holds, so both
      shape indices stay within 0..3. */
  lemma {:induction false} RunKeepsInv(s: MorphState, events: seq<MorphEvent>)
    requires Inv(s)
    ensures Inv(Run(s, events))
    ensures 0 <= Run(s, events).currentShape < TotalShapes
    ensures 0 <= Run(s, events).targetShape < TotalShapes
    decreases events
  {
    if events != [] {
      var next := if events[0] == Tick then TickStep(s) else FrameStep(s);
      RunKeepsInv(next, events[1..]);
    }
  }

  /** The scheduler as the sketch holds it: closure variables reassigned by
      the interval callback and by `p.draw`. */
  class MorphScheduler {
    var currentShape: int
    var targetShape: int
    var isMorphing: bool
    var morphFrame: int

    function State(): MorphState
      reads this
    {
      MorphState(currentShape, targetShape, isMorphing, morphFrame)
    }

    constructor ()
      ensures State() == InitialMorph && Inv(State())
    {
      currentShape := Circle;
      targetShape := Circle;
      isMorphing := false;
      morphFrame := 0;
    }

    /** The 800 ms interval callback. */
    method Tick()
      requires Inv(State())
      modifies this
      ensures State() == TickStep(old(State())) && Inv(State())
    {
      if !isMorphing {
        isMorphing := true;
        morphFrame := 0;
        targetShape := NextShape(currentShape);
      }
    }

    /** The morph bookkeeping at the start of every `p.draw`. */
    method AdvanceMorph()
      requires Inv(State())
      modifies this
      ensures State() == FrameStep(old(State())) && Inv(State())
    {
      if isMorphing {
        morphFrame := morphFrame + 1;
        if morphFrame >= MorphDuration {
          isMorphing := false;
          morphFrame := 0;
          currentShape := targetShape;
        }
      }
    }
  }

  // ---------------------------------------------------------------------
  // Easing
  // ---------------------------------------------------------------------

  function Cube(x: real): real
  {
    x * x * x
  }

  lemma CubeMonotone(a: real, b: real)
    requires 0.0 <= a <= b
    ensures Cube(a) <= Cube(b)
  {
    assert a * a <= b * b by {
      assert a * a <= a * b;
      assert a * b <= b * b;
    }
    assert a * a * a <= b * b * a;
    assert b * b * a <= b * b * b;
  }

  lemma CubeUnitBounds(a: real)
    requires 0.0 <= a <= 1.0
    ensures 0.0 <= Cube(a) <= 1.0
  {
    CubeMonotone(0.0, a);
    CubeMonotone(a, 1.0);
  }

  /** `easeInOutCubic`: 4t^3 below one half, 1 - (2 - 2t)^3 / 2 from one half on. */
  function EaseInOutCubic(t: real): real
  {
    if t < 0.5 then 4.0 * Cube(t) else 1.0 - Cube(-2.0 * t + 2.0) / 2.0
  }

  lemma EaseFixedPoints()
    ensures EaseInOutCubic(0.0) == 0.0
    ensures EaseInOutCubic(0.5) == 0.5
    ensures EaseInOutCubic(1.0) == 1.0
  {
    assert Cube(0.0) == 0.0;
    assert Cube(1.0) == 1.0;
  }

  /** Below one half the ease stays below one half; from one half on it stays
      at or above one half; overall [0, 1] maps into [0, 1]. */
  lemma EaseRange(t: real)
    requires 0.0 <= t <= 1.0
    ensures 0.0 <= EaseInOutCubic(t) <= 1.0
    ensures t < 0.5 ==> EaseInOutCubic(t) <= 0.5
    ensures t >= 0.5 ==> EaseInOutCubic(t) >= 0.5
  {
    if t < 0.5 {
      CubeMonotone(0.0, t);
      CubeMonotone(t, 0.5);
    } else {
      CubeUnitBounds(-2.0 * t + 2.0);
    }
  }

  lemma EaseMonotone(t1: real, t2: real)
    requires 0.0 <= t1 <= t2 <= 1.0
    ensures EaseInOutCubic(t1) <= EaseInOutCubic(t2)
  {
    if t2 < 0.5 {
      CubeMonotone(t1, t2);
    } else if t1 >= 0.5 {
      CubeMonotone(-2.0 * t2 + 2.0, -2.0 * t1 + 2.0);
    } else {
      EaseRange(t1);
      EaseRange(t2);
    }
  }

  /** The ease is point-symmetric about (1/2, 1/2). */
  lemma EaseSymmetric(t: real)
    ensures EaseInOutCubic(1.0 - t) == 1.0 - EaseInOutCubic(t)
  {
    if t < 0.5 {
      assert -2.0 * (1.0 - t) + 2.0 == 2.0 * t;
      assert Cube(2.0 * t) == 8.0 * Cube(t);
    } else if t > 0.5 {
      assert -2.0 * t + 2.0 == 2.0 * (1.0 - t);
      assert Cube(2.0 * (1.0 - t)) == 8.0 * Cube(1.0 - t);
    }
  }

  // ---------------------------------------------------------------------
  // Vectors
  // ---------------------------------------------------------------------

  datatype Vec = Vec(x: real, y: real)

  const Zero: Vec := Vec(0.0, 0.0)

  function Add(a: Vec, b: Vec): Vec
  {
    Vec(a.x + b.x, a.y + b.y)
  }

  function Scale(v: Vec, k: real): Vec
  {
    Vec(v.x * k, v.y * k)
  }

  function MagSq(v: Vec): (m: real)
    ensures m >= 0.0
  {
    v.x * v.x + v.y * v.y
  }

  lemma MagSqScale(v: Vec, k: real)
    ensures MagSq(Scale(v, k)) == k * k * MagSq(v)
  {
    assert (v.x * k) * (v.x * k) == k * k * (v.x * v.x);
    assert (v.y * k) * (v.y * k) == k * k * (v.y * v.y);
  }

  /** What p5's `limit(max)` needs from its square root: when |v| exceeds
      `max`, `k` is the factor max / |v|. */
  predicate LimitFactor(v: Vec, max: real, k: real)
  {
    MagSq(v) > max * max ==> k >= 0.0 && k * k * MagSq(v) == max * max
  }

  /** p5's `limit(max)`: a vector longer than `max` is rescaled to length
      `max`; a shorter one is left as it is. */
  function Limit(v: Vec, max: real, k: real): (r: Vec)
    requires LimitFactor(v, max, k)
    ensures MagSq(r) <= max * max
    ensures MagSq(v) <= max * max ==> r == v
    ensures MagSq(v) > max * max ==> MagSq(r) == max * max && r == Scale(v, k) && k >= 0.0
  {
    MagSqScale(v, k);
    if MagSq(v) > max * max then Scale(v, k) else v
  }

  /** p5's `Vector.lerp(a, b, t)`. */
  function Lerp(a: Vec, b: Vec, t: real): Vec
  {
    Vec(a.x + (b.x - a.x) * t, a.y + (b.y - a.y) * t)
  }

  predicate Between(v: real, a: real, b: real)
  {
    (a <= v <= b) || (b <= v <= a)
  }

  lemma LerpBetween(a: Vec, b: Vec, t: real)
    requires 0.0 <= t <= 1.0
    ensures Between(Lerp(a, b, t).x, a.x, b.x)
    ensures Between(Lerp(a, b, t).y, a.y, b.y)
    ensures t == 0.0 ==> Lerp(a, b, t) == a
    ensures t == 1.0 ==> Lerp(a, b, t) == b
  {
    LerpCoordinate(a.x, b.x, t);
    LerpCoordinate(a.y, b.y, t);
  }

  lemma LerpCoordinate(a: real, b: real, t: real)
    requires 0.0 <= t <= 1.0
    ensures Between(a + (b - a) * t, a, b)
  {
    if a <= b {
      LerpUp(a, b, t);
    } else {
      LerpDown(a, b, t);
    }
  }

  lemma LerpUp(a: real, b: real, t: real)
    requires 0.0 <= t <= 1.0 && a <= b
    ensures a <= a + (b - a) * t <= b
  {
    ProductNonneg(b - a, t);
    ProductAtMost(t, b - a);
    assert t * (b - a) == (b - a) * t;
  }

  lemma LerpDown(a: real, b: real, t: real)
    requires 0.0 <= t <= 1.0 && b < a
    ensures b <= a + (b - a) * t <= a
  {
    ProductNonpos(t, b - a);
    ProductAtLeast(t, b - a);
  }

  /** The per-particle target of `p.draw` (lines 191-200), given the boundary
      points of the current and target shapes at the particle's angle: the
      current shape's point when steady, otherwise a point on the segment
      between the two, moved along it by the eased progress. */
  function MorphTarget(s: MorphState, fromPos: Vec, toPos: Vec): (r: Vec)
    requires Inv(s)
    ensures !s.isMorphing ==> r == fromPos
    ensures Between(r.x, fromPos.x, toPos.x) && Between(r.y, fromPos.y, toPos.y)
    ensures s.isMorphing && s.morphFrame == 0 ==> r == fromPos
  {
    if s.isMorphing then
      var t := EaseInOutCubic(Progress(s));
      EaseRange(Progress(s));
      LerpBetween(fromPos, toPos, t);
      Lerp(fromPos, toPos, t)
    else
      fromPos
  }

  // ---------------------------------------------------------------------
  // Sampling and sizing
  // ---------------------------------------------------------------------

  /** p5's `random(lo, hi)` for a uniform draw `u` in [0, 1); an empty
      range gives back `lo`. */
  function RandomIn(lo: real, hi: real, u: real): (r: real)
    requires lo <= hi && InUnit(u)
    ensures lo <= r <= hi
    ensures lo < hi ==> r < hi
    ensures lo == hi ==> r == lo
  {
    RandomInAbove(lo, hi, u);
    RandomInBelow(lo, hi, u);
    u * (hi - lo) + lo
  }

  lemma RandomInAbove(lo: real, hi: real, u: real)
    requires lo <= hi && InUnit(u)
    ensures lo <= u * (hi - lo) + lo
  {
    ProductNonneg(u, hi - lo);
  }

  lemma RandomInBelow(lo: real, hi: real, u: real)
    requires lo <= hi && InUnit(u)
    ensures u * (hi - lo) + lo <= hi
    ensures lo < hi ==> u * (hi - lo) + lo < hi
  {
    if lo < hi {
      ProductStrictMonotone(u, 1.0, hi - lo);
    }
  }

  /** `SHAPE_RADIUS = min(width, height) * 0.3`. */
  function ShapeRadius(width: real, height: real): (r: real)
    ensures r <= 0.3 * width && r <= 0.3 * height
    ensures r == 0.3 * width || r == 0.3 * height
  {
    (if width <= height then width else height) * 0.3
  }

  /** The initial position drawn in `p.setup`: uniform over the canvas,
      centred on the origin. A side of length 0 gives the coordinate 0. */
  function SpawnPosition(width: real, height: real, u: real, v: real): (r: Vec)
    requires width >= 0.0 && height >= 0.0 && InUnit(u) && InUnit(v)
    ensures -width / 2.0 <= r.x <= width / 2.0
    ensures -height / 2.0 <= r.y <= height / 2.0
    ensures width > 0.0 ==> r.x < width / 2.0
    ensures height > 0.0 ==> r.y < height / 2.0
    ensures width == 0.0 ==> r.x == 0.0
    ensures height == 0.0 ==> r.y == 0.0
  {
    Vec(RandomIn(-width / 2.0, width / 2.0, u), RandomIn(-height / 2.0, height / 2.0, v))
  }

  // ---------------------------------------------------------------------
  // Stroke style
  // ---------------------------------------------------------------------

  /** p5's `map(value, start1, stop1, start2, stop2)`, without clamping. */
  function MapRange(value: real, start1: real, stop1: real, start2: real, stop2: real): real
    requires start1 != stop1
  {
    (value - start1) / (stop1 - start1) * (stop2 - start2) + start2
  }

  /** The mapping sends the ends of the source range to the ends of the
      target range and, for an increasing source range and a non-decreasing
      target range, keeps values inside the source range inside the target. */
  lemma MapRangeProperties(value: real, start1: real, stop1: real, start2: real, stop2: real)
    requires start1 < stop1 && start2 <= stop2
    ensures MapRange(start1, start1, stop1, start2, stop2) == start2
    ensures MapRange(stop1, start1, stop1, start2, stop2) == stop2
    ensures start1 <= value <= stop1 ==> start2 <= MapRange(value, start1, stop1, start2, stop2) <= stop2
  {
    if start1 <= value <= stop1 {
      QuotientUnit(value - start1, stop1 - start1);
      MapRangeAbove(value, start1, stop1, start2, stop2);
      MapRangeBelow(value, start1, stop1, start2, stop2);
    }
  }

  lemma MapRangeAbove(value: real, start1: real, stop1: real, start2: real, stop2: real)
    requires start1 < stop1 && start2 <= stop2 && 0.0 <= (value - start1) / (stop1 - start1)
    ensures start2 <= MapRange(value, start1, stop1, start2, stop2)
  {
    ProductNonneg((value - start1) / (stop1 - start1), stop2 - start2);
  }

  lemma MapRangeBelow(value: real, start1: real, stop1: real, start2: real, stop2: real)
    requires start1 < stop1 && start2 <= stop2 && (value - start1) / (stop1 - start1) <= 1.0
    ensures MapRange(value, start1, stop1, start2, stop2) <= stop2
  {
    ProductAtMost((value - start1) / (stop1 - start1), stop2 - start2);
  }

  lemma MapRangeMonotone(v1: real, v2: real, start1: real, stop1: real, start2: real, stop2: real)
    requires start1 < stop1 && start2 <= stop2 && v1 <= v2
    ensures MapRange(v1, start1, stop1, start2, stop2) <= MapRange(v2, start1, stop1, start2, stop2)
  {
    QuotientMonotone(v1 - start1, v2 - start1, stop1 - start1);
    ProductMonotone((v1 - start1) / (stop1 - start1), (v2 - start1) / (stop1 - start1), stop2 - start2);
  }

  /** The stroke `draw` uses: HSB brightness, opacity and weight. */
  datatype Stroke = Stroke(brightness: real, alpha: real, weight: real)

  /** Lines 68-71: each component mapped linearly from the speed over [0, maxSpeed]. */
  function StrokeFor(speed: real, maxSpeed: real, size: real): Stroke
    requires maxSpeed > 0.0
  {
    Stroke(MapRange(speed, 0.0, maxSpeed, 60.0, 100.0),
           MapRange(speed, 0.0, maxSpeed, 0.1, 0.8),
           MapRange(speed, 0.0, maxSpeed, size * 0.5, size))
  }

  /** For a speed within [0, maxSpeed], every component lies in its range:
      brightness in [60, 100], opacity in [0.1, 0.8], weight in [size/2, size],
      with the lower ends at rest and the upper ends at full speed. */
  lemma StrokeBounds(speed: real, maxSpeed: real, size: real)
    requires maxSpeed > 0.0 && size >= 0.0 && 0.0 <= speed <= maxSpeed
    ensures 60.0 <= StrokeFor(speed, maxSpeed, size).brightness <= 100.0
    ensures 0.1 <= StrokeFor(speed, maxSpeed, size).alpha <= 0.8
    ensures size * 0.5 <= StrokeFor(speed, maxSpeed, size).weight <= size
    ensures StrokeFor(0.0, maxSpeed, size) == Stroke(60.0, 0.1, size * 0.5)
    ensures StrokeFor(maxSpeed, maxSpeed, size) == Stroke(100.0, 0.8, size)
  {
    MapRangeProperties(speed, 0.0, maxSpeed, 60.0, 100.0);
    MapRangeProperties(speed, 0.0, maxSpeed, 0.1, 0.8);
    MapRangeProperties(speed, 0.0, maxSpeed, size * 0.5, size);
  }

  /** Faster particles are drawn at least as bright, as opaque and as thick. */
  lemma StrokeMonotone(s1: real, s2: real, maxSpeed: real, size: real)
    requires maxSpeed > 0.0 && size >= 0.0 && s1 <= s2
    ensures StrokeFor(s1, maxSpeed, size).brightness <= StrokeFor(s2, maxSpeed, size).brightness
    ensures StrokeFor(s1, maxSpeed, size).alpha <= StrokeFor(s2, maxSpeed, size).alpha
    ensures StrokeFor(s1, maxSpeed, size).weight <= StrokeFor(s2, maxSpeed, size).weight
  {
    MapRangeMonotone(s1, s2, 0.0, maxSpeed, 60.0, 100.0);
    MapRangeMonotone(s1, s2, 0.0, maxSpeed, 0.1, 0.8);
    MapRangeMonotone(s1, s2, 0.0, maxSpeed, size * 0.5, size);
  }

  /** A non-negative speed whose square is at most maxSpeed^2 is at most maxSpeed. */
  lemma SpeedBound(speed: real, maxSpeed: real)
    requires 0.0 <= speed && 0.0 <= maxSpeed && speed * speed <= maxSpeed * maxSpeed
    ensures speed <= maxSpeed
  {
    if speed > maxSpeed {
      SquareStrict(maxSpeed, speed);
    }
  }

  // ---------------------------------------------------------------------
  // Particle
  // ---------------------------------------------------------------------

  class Particle {
    var pos: Vec
    var vel: Vec
    var acc: Vec
    var prevPos: Vec
    const maxSpeed: real
    const maxForce: real
    const size: real

    /** The constructor's ranges, and the speed bound `update` maintains. */
    predicate Valid()
      reads this
    {
      && 1.0 <= maxSpeed < MaxSpeed
      && 0.05 <= maxForce < MaxForce
      && 0.5 <= size < 4.5
      && MagSq(vel) <= maxSpeed * maxSpeed
    }

    /** `new Particle()`, with the three `p.random` draws as inputs. */
    constructor (uSpeed: real, uForce: real, uSize: real)
      requires InUnit(uSpeed) && InUnit(uForce) && InUnit(uSize)
      ensures Valid()
      ensures pos == Zero && vel == Zero && acc == Zero && prevPos == Zero
      ensures maxSpeed == RandomIn(1.0, MaxSpeed, uSpeed)
      ensures maxForce == RandomIn(0.05, MaxForce, uForce)
      ensures size == RandomIn(0.5, 4.5, uSize)
    {
      pos := Zero;
      vel := Zero;
      acc := Zero;
      prevPos := Zero;
      maxSpeed := RandomIn(1.0, MaxSpeed, uSpeed);
      maxForce := RandomIn(0.05, MaxForce, uForce);
      size := RandomIn(0.5, 4.5, uSize);
    }

    /** `applyForce`: forces accumulate into the acceleration. */
    method ApplyForce(force: Vec)
      requires Valid()
      modifies this
      ensures Valid()
      ensures acc == Add(old(acc), force)
      ensures pos == old(pos) && vel == old(vel) && prevPos == old(prevPos)
    {
      acc := Add(acc, force);
    }

    /** `update`: integrate the acceleration into the velocity, cap the speed,
        move, and clear the acceleration. `k` is the factor p5's `limit`
        computes with a square root. */
    method Update(k: real)
      requires Valid()
      requires LimitFactor(Add(vel, acc), maxSpeed, k)
      modifies this
      ensures Valid()
      ensures vel == Limit(Add(old(vel), old(acc)), maxSpeed, k)
      ensures MagSq(vel) <= maxSpeed * maxSpeed
      ensures pos == Add(old(pos), vel)
      ensures acc == Zero
      ensures prevPos == old(prevPos)
    {
      vel := Add(vel, acc);
      vel := Limit(vel, maxSpeed, k);
      pos := Add(pos, vel);
      acc := Scale(acc, 0.0);
    }

    /** `draw`: the stroke is chosen from the speed `speed` = |vel| (passed in,
        as it needs a square root), and the trail start moves to the current
        position. */
    method Draw(speed: real) returns (stroke: Stroke)
      requires Valid()
      requires speed >= 0.0 && speed * speed == MagSq(vel)
      modifies this
      ensures Valid()
      ensures stroke == StrokeFor(speed, maxSpeed, size)
      ensures 60.0 <= stroke.brightness <= 100.0
      ensures 0.1 <= stroke.alpha <= 0.8
      ensures size * 0.5 <= stroke.weight <= size
      ensures prevPos == pos
      ensures pos == old(pos) && vel == old(vel) && acc == old(acc)
    {
      SpeedBound(speed, maxSpeed);
      StrokeBounds(speed, maxSpeed, size);
      stroke := StrokeFor(speed, maxSpeed, size);
      prevPos := pos;
    }

    /** The square-root inputs one iteration of the `p.draw` loop needs:
        `k` is the factor `limit` scales the new velocity by, `speed` the
        magnitude of the capped velocity. */
    predicate CanStep(steer: Vec, k: real, speed: real)
      reads this
    {
      && LimitFactor(Add(vel, Add(acc, steer)), maxSpeed, k)
      && speed >= 0.0
      && speed * speed == MagSq(Limit(Add(vel, Add(acc, steer)), maxSpeed, k))
    }

    /** The state one loop iteration leaves, from velocity `vel0`,
        acceleration `acc0` and position `pos0`. */
    predicate Stepped(vel0: Vec, acc0: Vec, pos0: Vec, steer: Vec, k: real, speed: real, stroke: Stroke)
      reads this
    {
      && Valid()
      && LimitFactor(Add(vel0, Add(acc0, steer)), maxSpeed, k)
      && vel == Limit(Add(vel0, Add(acc0, steer)), maxSpeed, k)
      && pos == Add(pos0, vel)
      && acc == Zero
      && prevPos == pos
      && stroke == StrokeFor(speed, maxSpeed, size)
    }

    /** One iteration of the particle loop of `p.draw`: apply the steering
        force `seek` computed, integrate, draw. */
    method Step(steer: Vec, k: real, speed: real) returns (stroke: Stroke)
      requires Valid() && CanStep(steer, k, speed)
      modifies this
      ensures Valid()
      ensures Stepped(old(vel), old(acc), old(pos), steer, k, speed, stroke)
    {
      ApplyForce(steer);
      Update(k);
      stroke := Draw(speed);
    }

    /** Placing the particle (setup and resize): position and trail start both
        set to `p`. */
    method Place(p: Vec)
      requires Valid()
      modifies this
      ensures Valid()
      ensures pos == p && prevPos == p
      ensures vel == old(vel) && acc == old(acc)
    {
      pos := p;
      prevPos := p;
    }
  }
  // ---------------------------------------------------------------------
  // The particle array
  // ---------------------------------------------------------------------

  /** The five `p.random` draws `p.setup` makes for one particle: three in
      its constructor, two for its starting position. */
  datatype ParticleDraws = ParticleDraws(speed: real, force: real, size: real, x: real, y: real)

  predicate ValidParticleDraws(d: ParticleDraws)
  {
    InUnit(d.speed) && InUnit(d.force) && InUnit(d.size) && InUnit(d.x) && InUnit(d.y)
  }

  /** The sketch's `particles` array and `SHAPE_RADIUS`. */
  class Swarm {
    var particles: seq<Particle>
    var shapeRadius: real

    /** Every particle valid and none listed twice. */
    predicate Valid()
      reads this, particles
    {
      && (forall i :: 0 <= i < |particles| ==> particles[i].Valid())
      && (forall i, j :: 0 <= i < j < |particles| ==> particles[i] != particles[j])
    }

    /** `p.setup` on a `width` by `height` canvas: the shape radius, then
        1500 particles, each placed at a uniform point of the canvas with its
        trail starting there. */
    constructor (width: real, height: real, draws: seq<ParticleDraws>)
      requires width >= 0.0 && height >= 0.0 && |draws| == ParticlesCount
      requires forall i :: 0 <= i < |draws| ==> ValidParticleDraws(draws[i])
      ensures Valid()
      ensures shapeRadius == ShapeRadius(width, height)
      ensures |particles| == |draws|
      ensures forall i :: 0 <= i < |particles| ==>
                && fresh(particles[i])
                && ValidParticleDraws(draws[i])
                && particles[i].pos == SpawnPosition(width, height, draws[i].x, draws[i].y)
                && particles[i].prevPos == particles[i].pos
                && particles[i].vel == Zero && particles[i].acc == Zero
                && particles[i].maxSpeed == RandomIn(1.0, MaxSpeed, draws[i].speed)
                && particles[i].maxForce == RandomIn(0.05, MaxForce, draws[i].force)
                && particles[i].size == RandomIn(0.5, 4.5, draws[i].size)
    {
      shapeRadius := ShapeRadius(width, height);
      particles := [];
      new;
      var i := 0;
      while i < |draws|
        invariant 0 <= i <= |draws| && |particles| == i
        invariant shapeRadius == ShapeRadius(width, height)
        invariant forall j, k :: 0 <= j < k < i ==> particles[j] != particles[k]
        invariant forall j :: 0 <= j < i ==>
                    && fresh(particles[j])
                    && particles[j].Valid()
                    && particles[j].pos == SpawnPosition(width, height, draws[j].x, draws[j].y)
                    && particles[j].prevPos == particles[j].pos
                    && particles[j].vel == Zero && particles[j].acc == Zero
                    && particles[j].maxSpeed == RandomIn(1.0, MaxSpeed, draws[j].speed)
                    && particles[j].maxForce == RandomIn(0.05, MaxForce, draws[j].force)
                    && particles[j].size == RandomIn(0.5, 4.5, draws[j].size)
      {
        var d := draws[i];
        var particle := new Particle(d.speed, d.force, d.size);
        particle.Place(SpawnPosition(width, height, d.x, d.y));
        particles := particles + [particle];
        i := i + 1;
      }
    }

    /** The particle loop of `p.draw`: each particle in turn takes its
        steering force, is integrated and is drawn. `steers[i]` is the force
        `seek` computes for particle `i`, `ks[i]` the factor its `limit`
        needs and `speeds[i]` the magnitude of its new velocity, all three
        from square roots. The strokes come back in particle order. */
    method Frame(steers: seq<Vec>, ks: seq<real>, speeds: seq<real>) returns (strokes: seq<Stroke>)
      requires Valid()
      requires |steers| == |particles| && |ks| == |particles| && |speeds| == |particles|
      requires forall i :: 0 <= i < |particles| ==> particles[i].CanStep(steers[i], ks[i], speeds[i])
      modifies particles
      ensures Valid()
      ensures |strokes| == |particles|
      ensures forall i :: 0 <= i < |particles| ==>
                particles[i].Stepped(old(particles[i].vel), old(particles[i].acc), old(particles[i].pos),
                                     steers[i], ks[i], speeds[i], strokes[i])
    {
      strokes := [];
      var i := 0;
      while i < |particles|
        invariant 0 <= i <= |particles| && |strokes| == i
        invariant forall j :: 0 <= j < |particles| ==> particles[j].Valid()
        invariant forall j :: 0 <= j < i ==>
                    particles[j].Stepped(old(particles[j].vel), old(particles[j].acc), old(particles[j].pos),
                                         steers[j], ks[j], speeds[j], strokes[j])
        invariant forall j :: i <= j < |particles| ==> particles[j].CanStep(steers[j], ks[j], speeds[j])
        invariant forall j :: i <= j < |particles| ==>
                    && particles[j].vel == old(particles[j].vel)
                    && particles[j].acc == old(particles[j].acc)
                    && particles[j].pos == old(particles[j].pos)
      {
        var stroke := particles[i].Step(steers[i], ks[i], speeds[i]);
        strokes := strokes + [stroke];
        i := i + 1;
      }
    }

    /** `p.windowResized`: the shape radius follows the new canvas, and every
        particle is put back on the current shape with its trail cleared.
        `targets[i]` is the boundary point of the current shape for particle
        `i` at the new radius. */
    method Resize(width: real, height: real, targets: seq<Vec>)
      requires Valid() && |targets| == |particles|
      modifies this, particles
      ensures Valid() && particles == old(particles)
      ensures shapeRadius == ShapeRadius(width, height)
      ensures forall i :: 0 <= i < |particles| ==>
                && particles[i].pos == targets[i] && particles[i].prevPos == targets[i]
                && particles[i].vel == old(particles[i].vel) && particles[i].acc == old(particles[i].acc)
    {
      shapeRadius := ShapeRadius(width, height);
      var i := 0;
      while i < |particles|
        invariant 0 <= i <= |particles| && particles == old(particles)
        invariant shapeRadius == ShapeRadius(width, height)
        invariant forall j :: 0 <= j < |particles| ==> particles[j].Valid()
        invariant forall j :: 0 <= j < |particles| ==>
                    particles[j].vel == old(particles[j].vel) && particles[j].acc == old(particles[j].acc)
        invariant forall j :: 0 <= j < i ==> particles[j].pos == targets[j] && particles[j].prevPos == targets[j]
      {
        particles[i].Place(targets[i]);
        i := i + 1;
      }
    }
  }
}

=== FILE: real_facts.dfy ===
/** Facts about real arithmetic shared by both animations. Each lemma holds a
    single product fact: the solver handles nonlinear real arithmetic best
    when every such fact is isolated. */
module RealFacts {

  /** A uniform random draw: a real in [0, 1). */
  predicate InUnit(u: real)
  {
    0.0 <= u < 1.0
  }

  lemma ProductNonneg(x: real, y: real)
    requires x >= 0.0 && y >= 0.0
    ensures x * y >= 0.0
  {
  }

  lemma ProductNonpos(x: real, y: real)
    requires x >= 0.0 && y <= 0.0
    ensures y * x <= 0.0
  {
    ProductNonneg(x, -y);
    assert y * x == -(x * -y);
  }

  lemma ProductAtMost(x: real, y: real)
    requires x <= 1.0 && y >= 0.0
    ensures x * y <= y
  {
    ProductNonneg(1.0 - x, y);
    assert (1.0 - x) * y == y - x * y;
  }

  lemma ProductAtLeast(x: real, y: real)
    requires x <= 1.0 && y <= 0.0
    ensures y * x >= y
  {
    ProductNonneg(1.0 - x, -y);
    assert (1.0 - x) * -y == y * x - y;
  }

  lemma ProductStrictMonotone(x1: real, x2: real, y: real)
    requires x1 < x2 && y > 0.0
    ensures x1 * y < x2 * y
  {
    assert x2 * y - x1 * y == (x2 - x1) * y;
  }

  lemma ProductMonotone(x1: real, x2: real, y: real)
    requires x1 <= x2 && y >= 0.0
    ensures x1 * y <= x2 * y
  {
    ProductNonneg(x2 - x1, y);
    assert (x2 - x1) * y == x2 * y - x1 * y;
  }

  lemma SquareStrict(a: real, b: real)
    requires 0.0 <= a < b
    ensures a * a < b * b
  {
    var d := b - a;
    assert b * b == a * a + 2.0 * a * d + d * d;
    assert d * d > 0.0;
    assert a * d >= 0.0;
  }

  lemma QuotientUnit(a: real, b: real)
    requires 0.0 <= a <= b && b > 0.0
    ensures 0.0 <= a / b <= 1.0
  {
  }

  lemma QuotientMonotone(a1: real, a2: real, b: real)
    requires a1 <= a2 && b > 0.0
    ensures a1 / b <= a2 / b
  {
  }

  lemma UnitFactor(k: real, a: real)
    requires k == 1.0
    ensures k * a == a
  {
  }
}
